=== FILE: README.md ===
# Custodial exchange: ledger, order book and fee control

This project models the `Exchange` contract of a small custodial token exchange in Dafny. Users deposit the native currency (ether) or ERC20 tokens into a shared ledger. They withdraw from it, paying a fee. They place and cancel orders, and they settle an order against the ledger. The owner of the fee settings can change the fee account and the fee percentage.

The contract's Solidity text is not part of this model. Its behaviour is taken from what `test/exchange.test.js` asserts about it. Where the tests are silent, `scripts/seed-exchange.js` is used as informal evidence. Each call is one atomic transition on an immutable state.
- A call that commits returns the new state and the event it emitted.
- A call that fails returns an `Error` and no state, so a reverted call changes nothing.

Layout, one module per file:

- `results.dfy` (`Results`): the `Result` type of a transaction.
- `books.dfy` (`Books`): balance tables keyed by (asset, account), with missing entries reading as zero.
  - The zero address `Ether` stands for the native currency.
  - `Total` sums a table over all accounts. The lemmas `SumRemove`, `SumFrame` and `SumUpdate` prove how credits, debits and transfers change that sum.
- `erc20.dfy` (`Erc20`): the token collaborator, modelled only at its interface (`transfer`, `transferFrom`, `approve`). It performs the balance check before the allowance check, as the OpenZeppelin 3.x ERC20 does.
- `exchange_state.dfy` (`ExchangeState`): the contract storage, the surrounding world (holdings outside the exchange, allowances, the exchange's own address), events, errors, the constructor, and `balanceOf`.
- `ledger.dfy` (`Ledger`): `depositEther`, `depositToken`, `withdrawEther`, `withdrawToken`, and the withdrawal fee.
- `order_book.dfy` (`OrderBook`): `makeOrder`, `cancelOrder`, `fillOrder`.
- `fee_admin.dfy` (`FeeAdmin`): `changeFeeAccount`, `changeFeePercent`, and the ownership calls inherited from OpenZeppelin's `Ownable`: `transferOwnership` and `renounceOwnership`.
- `host.dfy` (`Host`): every transaction as one `Step`, and runs of steps.
  - `Solvent`: for every asset, what the exchange holds covers what its ledger owes.
  - `OrdersWellFormed`: the order records are well formed.
  - Both invariants are proved for every run that starts from a fresh deployment.
- `scenarios.dfy` (`Scenarios`): the test cases as lemmas, plus the all-inputs laws they are instances of.

Amounts are natural numbers in the smallest unit. The tests' `toWei(x)` is `x * Unit` with `Unit = 10^18`.

## Model

| member | source | states |
|---|---|---|
| ExchangeState.Deploy | test/exchange.test.js:36-44 | a fresh exchange has the constructor argument as fee account (and as owner), fee percent 10, an all-zero ledger and well-formed, empty order records |
| ExchangeState.BalanceOf | test/exchange.test.js:106-110 | a recorded (token, user) entry reads back exactly as recorded, a positive read is always such an entry (so an unrecorded pair reads 0), and no read exceeds the ledger's total for that token |
| Ledger.Fee | test/exchange.test.js:172-176 | the fee is the floor of amount × percent / 100, characterised by `fee·100 ≤ amount·percent < (fee+1)·100`, and never exceeds the amount while the percent is at most 100 |
| Ledger.DepositEther | test/exchange.test.js:198-223 | succeeds exactly when 0 < value ≤ the sender's ether; a zero value fails with ZeroDeposit; on success the caller's ledger entry grows by exactly the value, nothing else in the ledger moves, the value goes from the caller into custody, and the Deposit event's balance is the new ledger balance |
| Ledger.DepositToken | test/exchange.test.js:99-151 | fails with EtherNotAllowed for the zero address, with ZeroDeposit for 0, and otherwise with the token's own error: NotAToken for an address with no token, ExceedsBalance when the caller holds too little, ExceedsAllowance when only the allowance is short; otherwise credits exactly the amount, moves it into custody, consumes that much allowance and reports the new balance |
| Ledger.BalanceOfAfterDeposit | test/exchange.test.js:106-110 | after a successful token deposit, `balanceOf` for the caller reads the old balance plus the amount, equals the balance the Deposit event reports, and reads as before for every other pair |
| Ledger.Withdraw | test/exchange.test.js:160-195 | succeeds exactly when the ledger entry covers the amount, the fee does not exceed it and custody can pay the net; more than the balance fails with AmountExceedsBalance; on success the caller's entry drops by the whole amount, the fee account's entry rises by the fee, `amount - fee` leaves custody to the caller, and caller holdings + caller entry + fee entry are conserved for every caller but the exchange |
| Ledger.CommitWithdrawal | test/exchange.test.js:166-176 | once the payout has gone through, the ledger skims the fee and the result is a withdrawal as `Withdrawn` states, conserving the caller's holdings plus the caller's and fee account's entries |
| Ledger.WithdrawnConserves | test/exchange.test.js:160-176 | after a withdrawal by anyone but the exchange itself, the caller's outside holdings plus the caller's and the fee account's ledger entries add up to what they did before (94.5 + 5 + 0.5 = 100 in the test); when the fee account withdraws, its holdings plus its one entry are conserved |
| Ledger.SkimFee | test/exchange.test.js:166-176 | the ledger after a withdrawal: caller entry down by the gross amount, fee account up by the fee, every other entry unchanged, the asset's total down by exactly the net paid out |
| Ledger.PayOut | test/exchange.test.js:160-164 | the outbound transfer succeeds exactly when custody holds the net amount of a payable asset, and then moves exactly that amount from custody to the caller; a short native payout fails with PayoutFailed, a token payout with the token's NotAToken or ExceedsBalance |
| Ledger.WithdrawEther | test/exchange.test.js:227-262 | more than the ledger balance fails with AmountExceedsBalance; a success is a fee-skimming withdrawal; while custody covers the ledger and the percent is at most 100, any covered withdrawal succeeds |
| Ledger.WithdrawToken | test/exchange.test.js:154-195 | the token path of the withdrawal, with the same guarantees as `WithdrawEther`; the zero address is refused |
| Erc20.Transfer | test/exchange.test.js:23-25 | a token transfer succeeds exactly when the token exists and the sender holds the amount, moves exactly that amount and keeps the token's total supply |
| Erc20.TransferFrom | test/exchange.test.js:132-141 | a pull succeeds exactly when the token exists and both the owner's balance and the allowance cover the amount; an allowance below the amount fails with ExceedsAllowance; a success consumes exactly the amount of allowance |
| Erc20.Approve | test/exchange.test.js:102-104 | approval replaces the allowance of that (token, owner, spender) with the given amount and touches no other allowance |
| OrderBook.MakeOrder | test/exchange.test.js:266-300 | the order count grows by one; the new id holds exactly the caller and the four supplied asset/amount fields; every earlier order is unchanged; the Order event carries the new record; from well-formed order records, the id was unused and the records stay well formed |
| OrderBook.CancelOrder | test/exchange.test.js:302-336 | succeeds exactly when the order exists, belongs to the caller and is neither cancelled nor filled; a non-creator gets NotOwner, a repeated cancel gets AlreadyCancelled; a success adds only that id to the cancelled set |
| OrderBook.Settle | scripts/seed-exchange.js:46-51 | a settlement moves `amountGet` from filler to creator and `amountGive` back (when both legs use the same asset, each party's entry changes by the difference of the two amounts); every asset total and the pair's combined holding are unchanged and no third account is touched |
| OrderBook.FillOrder | scripts/seed-exchange.js:46-51 | succeeds exactly when the order exists, is open and both sides hold their leg; a success settles the trade, marks only that id filled, and keeps the records well formed |
| FeeAdmin.ChangeFeeAccount | test/exchange.test.js:48-64 | succeeds exactly for the owner, and then changes only the fee account; any other caller gets NotOwner |
| FeeAdmin.ChangeFeePercent | test/exchange.test.js:66-82 | succeeds exactly for the owner, and then changes only the fee percent; any other caller gets NotOwner |
| FeeAdmin.TransferOwnership | test/exchange.test.js:11-12 | `Ownable`'s `transferOwnership`: succeeds exactly when the owner names a non-zero address; anyone else gets NotOwner and the zero address gets ZeroOwner; a success changes only the owner and emits OwnershipTransferred |
| FeeAdmin.RenounceOwnership | test/exchange.test.js:11-12 | `Ownable`'s `renounceOwnership`: succeeds exactly for the owner, then sets the owner to the zero address and changes nothing else; anyone else gets NotOwner |
| Host.StepConservesSupply | test/exchange.test.js:160-164 | no transaction mints or burns tokens or ether outside the exchange or moves the exchange; only the two ownership calls change the owner, and only when the owner sends them |
| Host.StepCustodyTracksLedger | test/exchange.test.js:84-97 | every exchange call changes custody of each asset by exactly the change in the ledger's total of that asset, so value never enters custody without a matching credit; a direct token transfer can only add to custody |
| Host.StepKeepsOrders | test/exchange.test.js:266-336 | no committed transaction breaks the order records: ids stay exactly 1..orderCount, each record keeps its own id, and no id is both cancelled and filled |
| Host.StepKeepsStatus | test/exchange.test.js:302-336 | from well-formed order records, no committed transaction lowers the order count, removes or rewrites a recorded order, uncancels or unfills an id, or makes an id both cancelled and filled |
| Host.RunKeepsStatus | test/exchange.test.js:302-336 | the same over any run of transactions, which also keeps the records well formed |
| Host.StepKeepsInvariant | test/exchange.test.js:99-264 | one committed transaction, not sent by the exchange itself, keeps custody covering the ledger and the order records well formed |
| Host.RunKeepsInvariant | test/exchange.test.js:19-26 | every run of transactions from a world satisfying the invariant, including a fresh deployment, keeps it |
| Host.DeployedSatisfiesInvariant | test/exchange.test.js:19-21 | a freshly deployed exchange satisfies the invariant |
| Scenarios.FeeAdminScenario | test/exchange.test.js:48-82 | the deployment's fee account can set the fee account and the percent (to 5); another account is refused both |
| Scenarios.OwnershipScenario | test/exchange.test.js:48-82 | after the fee account hands ownership to another address, the fee account is refused the fee setters and the new owner is accepted; handing it to the zero address is refused; after the new owner renounces, it is refused too |
| Scenarios.FallbackRejected | test/exchange.test.js:84-97 | value sent without a function call is refused |
| Scenarios.TokenDepositScenario | test/exchange.test.js:99-151 | approve 10 then deposit 10 gives ledger balance 10 and the Deposit event; 0 tokens, the zero address and a deposit over a re-approved allowance of 5 all fail |
| Scenarios.TokenWithdrawScenario | test/exchange.test.js:154-196 | after depositing 10, withdrawing 5 leaves 94.5 in the user's wallet, 5 in the ledger and 0.5 with the fee account, with the Withdrawal event; withdrawing 15 fails |
| Scenarios.WithdrawFiveOfTen | test/exchange.test.js:160-195 | from 90 tokens outside and 10 in the ledger at 10 percent, withdrawing 5 leaves 94.5 outside, 5 in the ledger and 0.5 with the fee account, with the Withdrawal event; withdrawing 15 fails |
| Scenarios.EtherDepositScenario | test/exchange.test.js:198-225 | depositing 1 ether gives ledger balance 1 and the Deposit event; depositing 0 fails |
| Scenarios.EtherWithdrawScenario | test/exchange.test.js:227-264 | after depositing 2, withdrawing 1 leaves balance 1 and 0.1 with the fee account, with the Withdrawal event; withdrawing 10 fails |
| Scenarios.WithdrawOneOfTwo | test/exchange.test.js:232-262 | from a ledger balance of 2 at 10 percent, withdrawing 1 leaves 1, credits 0.1 to the fee account and emits the Withdrawal event; withdrawing 10 fails |
| Scenarios.MakeOrderScenario | test/exchange.test.js:266-300 | the first order on a fresh exchange gets id 1, stores exactly the given fields, and the Order event carries that id, the creator and the four fields |
| Scenarios.CancelOrderScenario | test/exchange.test.js:302-336 | the creator cancels order 1, a second cancel fails with AlreadyCancelled, and another account's cancel fails with NotOwner |
| Scenarios.CancelIsFinal | test/exchange.test.js:316-325 | from well-formed order records, after a successful cancel and any later run of transactions, the order is still cancelled, the creator's repeat cancel fails with AlreadyCancelled, and no one can cancel or fill it |
| Scenarios.FillIsFinal | scripts/seed-exchange.js:46-51 | from well-formed order records, after a successful fill and any later run of transactions, the order is still filled, a fill fails with AlreadyFilled and a cancel fails |
| Scenarios.FillScenario | scripts/seed-exchange.js:23-51 | a maker offering 1 ether for 100 tokens is filled by a taker holding the tokens, and the two swap exactly those amounts; a second fill fails |
| Scenarios.EtherRoundTrip | test/exchange.test.js:227-252 | depositing and then withdrawing the same amount restores the caller's ledger entry, gives the fee to the fee account and returns all but the fee to the caller |

## Design choices where the tests are silent

The model follows the tests and the seeding script. Where neither says anything, each choice below is an assumption. Stricter rules would be reasonable in some of these places: a separate admin identity, refusing zero withdrawals, zero-amount orders and self-fills, and checking the order-id range. The tests show none of these, so the model keeps to what they show.

- **Owner.** The owner behind `onlyOwner` is the fee account passed to the constructor, because the tests call `changeFeeAccount` and `changeFeePercent` successfully from that account. `changeFeeAccount` does not hand over ownership (assumption). The owner changes only through the calls the contract inherits from OpenZeppelin's `Ownable` 3.x, modelled as that library defines them: `transferOwnership` refuses the zero address, and `renounceOwnership` sets the owner to the zero address. The tests exercise neither.
- **`cancelOrder` checks.** It checks the creator first, then whether the order is already cancelled, then whether it is filled. An id with no order fails the creator check, because Solidity's default record has the zero address as creator. Refusing to cancel a filled order is an assumption.
- **`fillOrder`.** It is modelled minimally: the order must exist and be neither cancelled nor filled, and the filler must hold `amountGet` and the creator `amountGive`. The two legs move in the ledger with no fee. All of this is an assumption, backed only by the seeding script's successful fill.
- **Fee above 100 percent.** A withdrawal whose fee would exceed its amount fails (`FeeExceedsAmount`). Under the 0.7.5 compiler (`truffle-config.js:32`), `amount - fee` either reverts under SafeMath or wraps to a huge payout that custody cannot cover. Either way the transaction reverts.
- **Order of checks in `depositToken` and `withdrawToken`.** `depositToken` rejects the zero address before checking for a zero amount. `withdrawToken` refusing the zero address is an assumption by symmetry with `depositToken`.
- **Zero amounts outside deposits.** A zero withdrawal is not refused, and an order with zero amounts is not refused. The tests exercise neither, and the only zero check they show is in the deposit paths.
- **Checking the creator's leg before the trade.** `fillOrder` checks both legs against the ledger as it stands before either moves. When both legs use the same asset, a creator who could pay `amountGive` only out of the `amountGet` they are about to receive is refused.
- **Balance in the Withdrawal event.** The event reports the caller's balance after the debit and before the fee credit (`old - amount`). For any caller other than the fee account that is the balance after the call, as the tests check. When the fee account withdraws, its balance afterwards is `old - amount + fee`, so the event reads the fee lower than `balanceOf`.
- **Native payout failure.** A native payout that custody cannot cover fails with its own error (`PayoutFailed`), not with a token error.
- **Self-fill.** A creator filling their own order is not refused. It moves nothing between accounts.

## Left out

- The Solidity text of `Exchange` and of the `RAIDTOKEN` token is not part of this model. The model is built from the assertions of `test/exchange.test.js`.
- Token minting, the initial supply and `test/token.test.js`: the token is modelled only as a balance table with allowances.
- 256-bit arithmetic: amounts are unbounded naturals. Overflow of `amount * feePercent` or of a balance is not modelled, since the amounts in use are far below 2^256.
- Gas, reentrancy and EVM call semantics. Every call is one atomic step, and the exchange itself never sends a transaction (the `caller != w.self` requirement of the `Host` lemmas).
- Ether arriving with non-payable functions: only `SendEther` and `DepositEther` carry value.
- A native payout to a contract that rejects it: a payout fails only when custody is short.
- The zero-address checks inside ERC20 transfers.
- The event log as a stream: each call returns the one event it emits. The admin setters and the direct token calls return `Silent`.
- The block clock: `makeOrder` takes the time as a parameter.
- Deployment and network configuration (`truffle-config.js`, `migrations/2_deploy_migration.js`), and the console output of `scripts/seed-exchange.js`.
- OrderBook.FillOrder: its contract is stated as an assumption about the `Exchange` contract, not as a property the tests check.
- Ledger.WithdrawToken: the refusal of the zero address is an assumption (see above).

=== FILE: books.dfy ===
/** Two-level balance tables keyed by (asset, account).

    The same shape serves twice: as the exchange's internal ledger and as the
    outside world's holdings (native currency under the `Ether` row, each
    token contract's balances under that contract's address). A missing entry
    reads as zero, as an unset Solidity mapping slot does. */
module Books {

  /** An account or contract address. */
  type Address = nat

  /** The zero address, which stands for the native currency wherever an
      asset is expected. */
  const Ether: Address := 0

  type Row = map<Address, nat>
  type Book = map<Address, Row>

  function RowOf(b: Book, asset: Address): Row {
    if asset in b then b[asset] else map[]
  }

  /** The amount of `asset` recorded for `account`; zero when never written. */
  function Get(b: Book, asset: Address, account: Address): nat {
    var row := RowOf(b, asset);
    if account in row then row[account] else 0
  }

  // ---------------------------------------------------------------------------
  // Totals

  /** Sum of the entries of `row` over `keys`. */
  ghost function SumOver(row: Row, keys: set<Address>): nat
    requires keys <= row.Keys
    decreases keys
  {
    if keys == {} then 0
    else
      var k :| k in keys;
      row[k] + SumOver(row, keys - {k})
  }

  /** Total amount of `asset` recorded in `b`, over all accounts. */
  ghost function Total(b: Book, asset: Address): nat {
    var row := RowOf(b, asset);
    SumOver(row, row.Keys)
  }

  /** Any element can be split off a sum, not only the one the definition picks. */
  lemma {:induction false} SumRemove(row: Row, keys: set<Address>, k: Address)
    requires keys <= row.Keys && k in keys
    ensures SumOver(row, keys) == row[k] + SumOver(row, keys - {k})
    decreases keys
  {
    var j :| j in keys && SumOver(row, keys) == row[j] + SumOver(row, keys - {j});
    if j != k {
      SumRemove(row, keys - {j}, k);
      SumRemove(row, keys - {k}, j);
      assert keys - {j} - {k} == keys - {k} - {j};
    }
  }

  /** No single entry exceeds the total for its asset. */
  lemma TotalBoundsEntry(b: Book, asset: Address, account: Address)
    ensures Get(b, asset, account) <= Total(b, asset)
  {
    var row := RowOf(b, asset);
    if account in row {
      SumRemove(row, row.Keys, account);
    }
  }

  /** Sums over the same keys agree when the rows agree on those keys. */
  lemma {:induction false} SumFrame(row1: Row, row2: Row, keys: set<Address>)
    requires keys <= row1.Keys && keys <= row2.Keys
    requires forall k :: k in keys ==> row1[k] == row2[k]
    ensures SumOver(row1, keys) == SumOver(row2, keys)
    decreases keys
  {
    if keys != {} {
      var k :| k in keys;
      SumRemove(row1, keys, k);
      SumRemove(row2, keys, k);
      SumFrame(row1, row2, keys - {k});
    }
  }

  /** Overwriting one entry changes the row's sum by the difference. */
  lemma SumUpdate(row: Row, k: Address, v: nat)
    ensures var row' := row[k := v];
            SumOver(row', row'.Keys) + (if k in row then row[k] else 0) == SumOver(row, row.Keys) + v
  {
    var row' := row[k := v];
    var rest := row.Keys - {k};
    assert row'.Keys - {k} == rest;
    SumRemove(row', row'.Keys, k);
    SumFrame(row, row', rest);
    if k in row {
      SumRemove(row, row.Keys, k);
    } else {
      assert row.Keys == rest;
    }
  }

  // ---------------------------------------------------------------------------
  // Single-entry updates

  /** `b'` differs from `b` at most in the entry (asset, account). */
  ghost predicate OnlyEntry(b: Book, b': Book, asset: Address, account: Address) {
    forall a, u :: (a != asset || u != account) ==> Get(b', a, u) == Get(b, a, u)
  }

  /** `b'` records the same totals as `b` for every asset other than `asset`. */
  ghost predicate OtherTotalsKept(b: Book, b': Book, asset: Address) {
    forall a :: a != asset ==> Total(b', a) == Total(b, a)
  }

  function Put(b: Book, asset: Address, account: Address, v: nat): (r: Book)
    ensures Get(r, asset, account) == v
    ensures OnlyEntry(b, r, asset, account)
    ensures Total(r, asset) + Get(b, asset, account) == Total(b, asset) + v
    ensures OtherTotalsKept(b, r, asset)
  {
    SumUpdate(RowOf(b, asset), account, v);
    b[asset := RowOf(b, asset)[account := v]]
  }

  /** Adds `amount` to the entry (asset, account). */
  function Credit(b: Book, asset: Address, account: Address, amount: nat): (r: Book)
    ensures Get(r, asset, account) == Get(b, asset, account) + amount
    ensures OnlyEntry(b, r, asset, account)
    ensures Total(r, asset) == Total(b, asset) + amount
    ensures OtherTotalsKept(b, r, asset)
  {
    Put(b, asset, account, Get(b, asset, account) + amount)
  }

  /** Takes `amount` from the entry (asset, account), which must hold it. */
  function Debit(b: Book, asset: Address, account: Address, amount: nat): (r: Book)
    requires amount <= Get(b, asset, account)
    ensures Get(r, asset, account) + amount == Get(b, asset, account)
    ensures OnlyEntry(b, r, asset, account)
    ensures Total(r, asset) + amount == Total(b, asset)
    ensures OtherTotalsKept(b, r, asset)
  {
    Put(b, asset, account, Get(b, asset, account) - amount)
  }

  // ---------------------------------------------------------------------------
  // Transfers

  /** `b'` is `b` after `amount` of `asset` went from `from` to `to`: those two
      entries shift by `amount` (nothing moves when they are the same
      account), no other entry changes, and no total changes. */
  ghost predicate Moved(b: Book, b': Book, asset: Address, from: Address, to: Address, amount: nat) {
    && (from != to ==>
          && Get(b', asset, from) + amount == Get(b, asset, from)
          && Get(b', asset, to) == Get(b, asset, to) + amount)
    && (from == to ==> Get(b', asset, from) == Get(b, asset, from))
    && (forall a, u :: (a != asset || (u != from && u != to)) ==> Get(b', a, u) == Get(b, a, u))
    && (forall a :: Total(b', a) == Total(b, a))
  }

  function Move(b: Book, asset: Address, from: Address, to: Address, amount: nat): (r: Book)
    requires amount <= Get(b, asset, from)
    ensures Moved(b, r, asset, from, to, amount)
  {
    Credit(Debit(b, asset, from, amount), asset, to, amount)
  }

  /** A table in which every entry reads as zero. */
  function Empty(): (b: Book)
    ensures forall a, u :: Get(b, a, u) == 0
    ensures forall a :: Total(b, a) == 0
  {
    map[]
  }
}

=== FILE: erc20.dfy ===
/** The fungible-token collaborator, seen only through its interface: token
    balances live in the holdings table under the token contract's address,
    and allowances are kept per (token, owner, spender). The checks follow the
    standard ERC20 of the OpenZeppelin 3.x line that the tests' error texts
    come from: the sender's balance is checked before the allowance. Minting,
    burning and the token's initial supply are not part of this model. */
module Erc20 {
  import opened Books
  import opened Results

  type Allowances = map<(Address, Address, Address), nat>

  datatype Error =
    | NotAToken         // no token contract lives at that address
    | ExceedsBalance    // "ERC20: transfer amount exceeds balance"
    | ExceedsAllowance  // "ERC20: transfer amount exceeds allowance"

  /** A token contract exists at `token`: it has a row in the holdings
      table, and it is not the zero address. */
  predicate IsToken(holdings: Book, token: Address) {
    token != Ether && token in holdings
  }

  function Allowance(allowances: Allowances, token: Address, owner: Address, spender: Address): nat {
    if (token, owner, spender) in allowances then allowances[(token, owner, spender)] else 0
  }

  /** `al'` differs from `al` at most in the allowance (token, owner, spender). */
  ghost predicate OnlyAllowance(al: Allowances, al': Allowances, token: Address, owner: Address, spender: Address) {
    forall t: Address, o: Address, s: Address :: (t, o, s) != (token, owner, spender) ==> Allowance(al', t, o, s) == Allowance(al, t, o, s)
  }

  /** `token.transfer(to, amount)` sent by `from`. */
  function Transfer(holdings: Book, token: Address, from: Address, to: Address, amount: nat): (r: Result<Book, Error>)
    ensures r.Ok? <==> IsToken(holdings, token) && amount <= Get(holdings, token, from)
    ensures !IsToken(holdings, token) ==> r == Err(NotAToken)
    ensures IsToken(holdings, token) && amount > Get(holdings, token, from) ==> r == Err(ExceedsBalance)
    ensures r.Ok? ==> Moved(holdings, r.value, token, from, to, amount)
  {
    if !IsToken(holdings, token) then Err(NotAToken)
    else if amount > Get(holdings, token, from) then Err(ExceedsBalance)
    else Ok(Move(holdings, token, from, to, amount))
  }

  /** `token.transferFrom(from, to, amount)` sent by `spender`: a transfer
      that also consumes `amount` of the allowance `from` granted `spender`. */
  function TransferFrom(holdings: Book, allowances: Allowances, token: Address,
                        spender: Address, from: Address, to: Address, amount: nat)
    : (r: Result<(Book, Allowances), Error>)
    ensures r.Ok? <==>
              && IsToken(holdings, token)
              && amount <= Get(holdings, token, from)
              && amount <= Allowance(allowances, token, from, spender)
    ensures !IsToken(holdings, token) ==> r == Err(NotAToken)
    ensures IsToken(holdings, token) && amount > Get(holdings, token, from) ==> r == Err(ExceedsBalance)
    ensures (IsToken(holdings, token) && amount <= Get(holdings, token, from)
             && amount > Allowance(allowances, token, from, spender)) ==> r == Err(ExceedsAllowance)
    ensures r.Ok? ==>
              && Moved(holdings, r.value.0, token, from, to, amount)
              && Allowance(r.value.1, token, from, spender) + amount == Allowance(allowances, token, from, spender)
              && OnlyAllowance(allowances, r.value.1, token, from, spender)
  {
    var moved :- Transfer(holdings, token, from, to, amount);
    var granted := Allowance(allowances, token, from, spender);
    if amount > granted then Err(ExceedsAllowance)
    else Ok((moved, allowances[(token, from, spender) := granted - amount]))
  }

  /** `token.approve(spender, amount)` sent by `owner`: the allowance is
      replaced, not added to. */
  function Approve(holdings: Book, allowances: Allowances, token: Address,
                   owner: Address, spender: Address, amount: nat)
    : (r: Result<Allowances, Error>)
    ensures r.Ok? <==> IsToken(holdings, token)
    ensures r.Err? ==> r.error == NotAToken
    ensures r.Ok? ==>
              && Allowance(r.value, token, owner, spender) == amount
              && OnlyAllowance(allowances, r.value, token, owner, spender)
  {
    if !IsToken(holdings, token) then Err(NotAToken)
    else Ok(allowances[(token, owner, spender) := amount])
  }
}

=== FILE: exchange_state.dfy ===
/** The state of a deployed Exchange and of the world it lives in.

    Every external call is one atomic transition on this state; a call either
    commits a new state together with the event it emits, or fails with an
    `Error` and commits nothing. */
module ExchangeState {
  import opened Books
  import Erc20

  /** One resting order, as `orders(id)` returns it. */
  datatype Order = Order(
    id: nat,
    user: Address,        // the creator
    tokenGet: Address,    // asset wanted
    amountGet: nat,
    tokenGive: Address,   // asset offered
    amountGive: nat,
    timestamp: nat)

  /** The contract's storage. `owner` is the `Ownable` owner that gates the fee
      settings; `tokens` is the ledger, read by `balanceOf(token, user)`. */
  datatype Exchange = Exchange(
    owner: Address,
    feeAccount: Address,
    feePercent: nat,
    tokens: Book,
    orderCount: nat,
    orders: map<nat, Order>,
    cancelledOrders: set<nat>,
    filledOrders: set<nat>)

  /** The exchange at address `self`, together with the holdings of every
      account outside it (native currency in the `Ether` row, token balances
      in each token's row) and the token allowances. What the exchange holds
      in custody is its own entry in `wallets`. */
  datatype World = World(
    self: Address,
    exchange: Exchange,
    wallets: Book,
    allowances: Erc20.Allowances)

  /** What a committed call emits. The fee setters and the direct token calls
      emit nothing the exchange defines, hence `Silent`; the two inherited
      ownership calls emit `Ownable`'s `OwnershipTransferred`. */
  datatype Event =
    | Deposit(token: Address, user: Address, amount: nat, balance: nat)
    | Withdrawal(token: Address, user: Address, amount: nat, balance: nat)
    | OrderMade(order: Order)
    | Cancel(order: Order)
    | Trade(order: Order, filler: Address)
    | OwnershipTransferred(previousOwner: Address, newOwner: Address)
    | Silent

  datatype Error =
    | NotOwner                      // "Ownable: caller is not the owner"
    | ZeroOwner                     // "Ownable: new owner is the zero address"
    | ZeroDeposit                   // "deposit must be greater than zero"
    | EtherNotAllowed               // "ether deposit are not allowed on this method"
    | AmountExceedsBalance          // "amount exceeds balance"
    | AlreadyCancelled              // "order has already been cancelled"
    | AlreadyFilled
    | OrderNotFound
    | FeeExceedsAmount              // a fee percentage above 100 makes `amount - fee` fail
    | NoFallback                    // plain value sent with no function selected
    | InsufficientFunds             // the sender cannot pay the value attached to the call
    | PayoutFailed                  // the native value transfer out of custody failed
    | TransferFailed(cause: Erc20.Error)

  /** A committed call: the new state and the event it emitted. */
  datatype Committed<S> = Committed(state: S, event: Event)

  const InitialFeePercent: nat := 10

  /** `Exchange.new(feeAccount)`: the fee account is also the owner. */
  function Deploy(feeAccount: Address): (ex: Exchange)
    ensures ex.feeAccount == feeAccount && ex.owner == feeAccount
    ensures ex.feePercent == 10
    ensures ex.orderCount == 0
    ensures forall a, u :: Get(ex.tokens, a, u) == 0
    ensures OrdersWellFormed(ex)
  {
    Exchange(feeAccount, feeAccount, InitialFeePercent, Empty(), 0, map[], {}, {})
  }

  /** `balanceOf(token, user)`: a pure read of the ledger. A recorded entry
      reads back as recorded, an account the ledger never credited reads as
      zero, and no account holds more than the ledger owes in total for that
      asset. */
  function BalanceOf(ex: Exchange, token: Address, user: Address): (b: nat)
    ensures b <= Total(ex.tokens, token)
    ensures b > 0 ==> token in ex.tokens && user in ex.tokens[token] && b == ex.tokens[token][user]
    ensures token in ex.tokens && user in ex.tokens[token] ==> b == ex.tokens[token][user]
  {
    TotalBoundsEntry(ex.tokens, token, user);
    Get(ex.tokens, token, user)
  }

  /** The order records are exactly ids 1..orderCount, each record carries
      its own id, and an order is cancelled or filled only once it exists,
      never both. */
  ghost predicate OrdersWellFormed(ex: Exchange) {
    && (forall id :: id in ex.orders <==> 1 <= id <= ex.orderCount)
    && (forall id :: id in ex.orders ==> ex.orders[id].id == id)
    && ex.cancelledOrders <= ex.orders.Keys
    && ex.filledOrders <= ex.orders.Keys
    && ex.cancelledOrders !! ex.filledOrders
  }

  /** `ex'` agrees with `ex` on everything except the ledger. */
  predicate SameExceptLedger(ex: Exchange, ex': Exchange) {
    ex' == ex.(tokens := ex'.tokens)
  }
}

=== FILE: fee_admin.dfy ===
/** The fee settings and who may change them: both setters are `onlyOwner`,
    and the owner is the fee account the exchange was deployed with. The
    owner itself changes only through the two calls the exchange inherits
    from OpenZeppelin's `Ownable` (3.x): `transferOwnership` and
    `renounceOwnership`, both `onlyOwner` too. */
module FeeAdmin {
  import opened Books
  import opened Results
  import opened ExchangeState

  /** `changeFeeAccount(account)`. Ownership stays where it was: the new fee
      account does not become the owner. */
  function ChangeFeeAccount(ex: Exchange, caller: Address, account: Address): (r: Result<Committed<Exchange>, Error>)
    ensures r.Ok? <==> caller == ex.owner
    ensures r.Err? ==> r.error == NotOwner
    ensures r.Ok? ==>
              && r.value.state.feeAccount == account
              && r.value.state.(feeAccount := ex.feeAccount) == ex
              && r.value.event == Silent
  {
    if caller != ex.owner then Err(NotOwner)
    else Ok(Committed(ex.(feeAccount := account), Silent))
  }

  /** `changeFeePercent(percent)`. No upper bound is enforced here; with a
      percentage above 100 a withdrawal fails once its fee would exceed the
      amount withdrawn. */
  function ChangeFeePercent(ex: Exchange, caller: Address, percent: nat): (r: Result<Committed<Exchange>, Error>)
    ensures r.Ok? <==> caller == ex.owner
    ensures r.Err? ==> r.error == NotOwner
    ensures r.Ok? ==>
              && r.value.state.feePercent == percent
              && r.value.state.(feePercent := ex.feePercent) == ex
              && r.value.event == Silent
  {
    if caller != ex.owner then Err(NotOwner)
    else Ok(Committed(ex.(feePercent := percent), Silent))
  }

  /** `transferOwnership(newOwner)`: the owner hands the fee settings to a
      non-zero address. */
  function TransferOwnership(ex: Exchange, caller: Address, newOwner: Address): (r: Result<Committed<Exchange>, Error>)
    ensures r.Ok? <==> caller == ex.owner && newOwner != 0
    ensures caller != ex.owner ==> r == Err(NotOwner)
    ensures caller == ex.owner && newOwner == 0 ==> r == Err(ZeroOwner)
    ensures r.Ok? ==>
              && r.value.state.owner == newOwner
              && r.value.state.(owner := ex.owner) == ex
              && r.value.event == OwnershipTransferred(ex.owner, newOwner)
  {
    if caller != ex.owner then Err(NotOwner)
    else if newOwner == 0 then Err(ZeroOwner)
    else Ok(Committed(ex.(owner := newOwner), OwnershipTransferred(ex.owner, newOwner)))
  }

  /** `renounceOwnership()`: the owner gives the fee settings up for good by
      setting the owner to the zero address, which sends no transactions. */
  function RenounceOwnership(ex: Exchange, caller: Address): (r: Result<Committed<Exchange>, Error>)
    ensures r.Ok? <==> caller == ex.owner
    ensures r.Err? ==> r.error == NotOwner
    ensures r.Ok? ==>
              && r.value.state.owner == 0
              && r.value.state.(owner := ex.owner) == ex
              && r.value.event == OwnershipTransferred(ex.owner, 0)
  {
    if caller != ex.owner then Err(NotOwner)
    else Ok(Committed(ex.(owner := 0), OwnershipTransferred(ex.owner, 0)))
  }
}

=== FILE: host.dfy ===
/** The entry surface: every transaction the world can send, to the exchange
    or to a token contract, as one atomic step, and the invariants every
    sequence of such steps keeps. */
module Host {
  import opened Books
  import opened Results
  import opened ExchangeState
  import Erc20
  import Ledger
  import OrderBook
  import FeeAdmin

  /** One transaction. The last two go to a token contract, not to the
      exchange; they are here because they move tokens in and out of
      custody too. */
  datatype Call =
    | SendEther(value: nat)     // value sent to the exchange with no function selected
    | DepositEther(value: nat)
    | DepositToken(token: Address, amount: nat)
    | WithdrawEther(amount: nat)
    | WithdrawToken(token: Address, amount: nat)
    | MakeOrder(tokenGet: Address, amountGet: nat, tokenGive: Address, amountGive: nat)
    | CancelOrder(id: nat)
    | FillOrder(id: nat)
    | ChangeFeeAccount(account: Address)
    | ChangeFeePercent(percent: nat)
    | TransferOwnership(newOwner: Address)
    | RenounceOwnership
    | TokenApprove(token: Address, spender: Address, amount: nat)
    | TokenTransfer(token: Address, to: Address, amount: nat)
  {
    predicate OnExchange() {
      !TokenApprove? && !TokenTransfer?
    }
  }

  /** A transaction together with its sender and the block time it runs at. */
  datatype Tx = Tx(caller: Address, call: Call, now: nat)

  /** Lifts a call that touches only the exchange's storage to the world. */
  function OnStorage(w: World, r: Result<Committed<Exchange>, Error>): Result<Committed<World>, Error> {
    match r
    case Ok(c) => Ok(Committed(w.(exchange := c.state), c.event))
    case Err(e) => Err(e)
  }

  /** Dispatches one transaction. Value sent with no function selected is
      refused, since the exchange has no payable fallback (see
      `Scenarios.FallbackRejected`). */
  function Step(w: World, caller: Address, call: Call, now: nat): Result<Committed<World>, Error> {
    match call
    case SendEther(_) => Err(NoFallback)
    case DepositEther(value) => Ledger.DepositEther(w, caller, value)
    case DepositToken(token, amount) => Ledger.DepositToken(w, caller, token, amount)
    case WithdrawEther(amount) => Ledger.WithdrawEther(w, caller, amount)
    case WithdrawToken(token, amount) => Ledger.WithdrawToken(w, caller, token, amount)
    case MakeOrder(tokenGet, amountGet, tokenGive, amountGive) =>
      OnStorage(w, Ok(OrderBook.MakeOrder(w.exchange, caller, tokenGet, amountGet, tokenGive, amountGive, now)))
    case CancelOrder(id) => OnStorage(w, OrderBook.CancelOrder(w.exchange, caller, id))
    case FillOrder(id) => OnStorage(w, OrderBook.FillOrder(w.exchange, caller, id))
    case ChangeFeeAccount(account) => OnStorage(w, FeeAdmin.ChangeFeeAccount(w.exchange, caller, account))
    case ChangeFeePercent(percent) => OnStorage(w, FeeAdmin.ChangeFeePercent(w.exchange, caller, percent))
    case TransferOwnership(newOwner) => OnStorage(w, FeeAdmin.TransferOwnership(w.exchange, caller, newOwner))
    case RenounceOwnership => OnStorage(w, FeeAdmin.RenounceOwnership(w.exchange, caller))
    case TokenApprove(token, spender, amount) =>
      var allowances :- Erc20.Approve(w.wallets, w.allowances, token, caller, spender, amount)
                          .MapError(e => TransferFailed(e));
      Ok(Committed(w.(allowances := allowances), Silent))
    case TokenTransfer(token, to, amount) =>
      var wallets :- Erc20.Transfer(w.wallets, token, caller, to, amount).MapError(e => TransferFailed(e));
      Ok(Committed(w.(wallets := wallets), Silent))
  }

  /** The world after `tx`; a failed transaction is reverted and leaves the
      world as it was. */
  function After(w: World, tx: Tx): World {
    var r := Step(w, tx.caller, tx.call, tx.now);
    if r.Ok? then r.value.state else w
  }

  /** Runs transactions in order. */
  function Run(w: World, txs: seq<Tx>): World
    decreases |txs|
  {
    if txs == [] then w else Run(After(w, txs[0]), txs[1..])
  }

  /** A world in which the exchange at `self` has just been deployed with
      fee account `feeAccount`. */
  function Deployed(self: Address, feeAccount: Address, wallets: Book, allowances: Erc20.Allowances): World {
    World(self, Deploy(feeAccount), wallets, allowances)
  }

  // ---------------------------------------------------------------------------
  // Invariants

  /** For every asset, custody holds at least what the ledger owes. */
  ghost predicate Solvent(w: World) {
    forall a :: Total(w.exchange.tokens, a) <= Get(w.wallets, a, w.self)
  }

  ghost predicate Invariant(w: World) {
    Solvent(w) && OrdersWellFormed(w.exchange)
  }

  /** No step mints or burns anything outside the exchange or moves the
      exchange. Only the two ownership calls change the owner, and only when
      the owner sends them. */
  lemma StepConservesSupply(w: World, caller: Address, call: Call, now: nat)
    requires Step(w, caller, call, now).Ok?
    ensures var w' := Step(w, caller, call, now).value.state;
            && w'.self == w.self
            && (!call.TransferOwnership? && !call.RenounceOwnership? ==> w'.exchange.owner == w.exchange.owner)
            && (w'.exchange.owner != w.exchange.owner ==> caller == w.exchange.owner)
            && forall a :: Total(w'.wallets, a) == Total(w.wallets, a)
  {
  }

  /** Custody of every asset changed by exactly as much as the ledger's total. */
  ghost predicate CustodyTracks(w: World, w': World) {
    forall a ::
      Get(w.wallets, a, w.self) + Total(w'.exchange.tokens, a)
      == Get(w'.wallets, a, w.self) + Total(w.exchange.tokens, a)
  }

  /** Custody of no asset fell behind the ledger's total. */
  ghost predicate CustodyCovers(w: World, w': World) {
    forall a ::
      Get(w.wallets, a, w.self) + Total(w'.exchange.tokens, a)
      <= Get(w'.wallets, a, w.self) + Total(w.exchange.tokens, a)
  }

  lemma DepositTracks(w: World, c: Committed<World>, asset: Address, caller: Address, amount: nat)
    requires caller != w.self
    requires Ledger.Deposited(w, c, asset, caller, amount)
    ensures CustodyTracks(w, c.state)
  {
  }

  lemma WithdrawalTracks(w: World, c: Committed<World>, asset: Address, caller: Address, amount: nat)
    requires caller != w.self
    requires Ledger.Withdrawn(w, c, asset, caller, amount)
    ensures CustodyTracks(w, c.state)
  {
  }

  /** Custody and the ledger move together: an exchange call changes what the
      exchange holds of an asset by exactly what it changes the ledger's
      total of that asset by, so nothing enters custody without a matching
      ledger credit and nothing leaves it without a matching debit. A direct
      token transfer can only add to custody. The exchange never sends a
      transaction itself, hence `caller != w.self`. */
  lemma StepCustodyTracksLedger(w: World, caller: Address, call: Call, now: nat)
    requires caller != w.self
    requires Step(w, caller, call, now).Ok?
    ensures CustodyCovers(w, Step(w, caller, call, now).value.state)
    ensures call.OnExchange() ==> CustodyTracks(w, Step(w, caller, call, now).value.state)
  {
    var c := Step(w, caller, call, now).value;
    var w' := c.state;
    match call {
      case SendEther(_) =>
      case DepositEther(value) =>
        DepositTracks(w, c, Ether, caller, value);
      case DepositToken(token, amount) =>
        DepositTracks(w, c, token, caller, amount);
      case WithdrawEther(amount) =>
        WithdrawalTracks(w, c, Ether, caller, amount);
      case WithdrawToken(token, amount) =>
        WithdrawalTracks(w, c, token, caller, amount);
      case MakeOrder(_, _, _, _) =>
        assert w'.wallets == w.wallets && w'.exchange.tokens == w.exchange.tokens;
      case CancelOrder(_) =>
        assert w'.wallets == w.wallets && w'.exchange.tokens == w.exchange.tokens;
      case FillOrder(id) =>
        assert w'.wallets == w.wallets;
        assert forall a :: Total(w'.exchange.tokens, a) == Total(w.exchange.tokens, a);
      case ChangeFeeAccount(_) =>
        assert w'.wallets == w.wallets && w'.exchange.tokens == w.exchange.tokens;
      case ChangeFeePercent(_) =>
        assert w'.wallets == w.wallets && w'.exchange.tokens == w.exchange.tokens;
      case TransferOwnership(_) =>
        assert w'.wallets == w.wallets && w'.exchange.tokens == w.exchange.tokens;
      case RenounceOwnership =>
        assert w'.wallets == w.wallets && w'.exchange.tokens == w.exchange.tokens;
      case TokenApprove(_, _, _) =>
        assert w'.wallets == w.wallets && w'.exchange.tokens == w.exchange.tokens;
      case TokenTransfer(token, to, amount) =>
        assert w'.exchange == w.exchange;
        assert Moved(w.wallets, w'.wallets, token, caller, to, amount);
    }
  }

  /** No step breaks the well-formedness of the order records. */
  lemma StepKeepsOrders(w: World, caller: Address, call: Call, now: nat)
    requires OrdersWellFormed(w.exchange)
    requires Step(w, caller, call, now).Ok?
    ensures OrdersWellFormed(Step(w, caller, call, now).value.state.exchange)
  {
    var w' := Step(w, caller, call, now).value.state;
    match call {
      case SendEther(_) =>
      case DepositEther(_) =>
      case DepositToken(_, _) =>
      case WithdrawEther(_) =>
      case WithdrawToken(_, _) =>
      case MakeOrder(_, _, _, _) =>
      case CancelOrder(_) =>
      case FillOrder(_) =>
      case ChangeFeeAccount(_) =>
      case ChangeFeePercent(_) =>
      case TransferOwnership(_) =>
      case RenounceOwnership =>
      case TokenApprove(_, _, _) =>
        assert w'.exchange == w.exchange;
      case TokenTransfer(_, _, _) =>
        assert w'.exchange == w.exchange;
    }
  }

  /** `ex'` keeps everything the order book has settled in `ex`: the order
      count never falls, no recorded order is removed or rewritten, cancelled
      and filled ids stay so, and no id becomes both cancelled and filled. */
  ghost predicate StatusKept(ex: Exchange, ex': Exchange) {
    && ex.orderCount <= ex'.orderCount
    && (forall id :: id in ex.orders ==> id in ex'.orders && ex'.orders[id] == ex.orders[id])
    && ex.cancelledOrders <= ex'.cancelledOrders
    && ex.filledOrders <= ex'.filledOrders
    && ex'.cancelledOrders * ex'.filledOrders == ex.cancelledOrders * ex.filledOrders
  }

  lemma StatusKeptTransitive(a: Exchange, b: Exchange, c: Exchange)
    requires StatusKept(a, b) && StatusKept(b, c)
    ensures StatusKept(a, c)
  {
  }

  /** Every committed step keeps the status of every order. Well-formed
      records are needed: they guarantee that the id `makeOrder` writes is
      unused. */
  lemma StepKeepsStatus(w: World, caller: Address, call: Call, now: nat)
    requires OrdersWellFormed(w.exchange)
    requires Step(w, caller, call, now).Ok?
    ensures StatusKept(w.exchange, Step(w, caller, call, now).value.state.exchange)
  {
    if call.DepositEther? || call.DepositToken? || call.WithdrawEther? || call.WithdrawToken? {
      LedgerStepKeepsStatus(w, caller, call, now);
    } else {
      OtherStepKeepsStatus(w, caller, call, now);
    }
  }

  /** Deposits and withdrawals change only the ledger. */
  lemma LedgerStepKeepsStatus(w: World, caller: Address, call: Call, now: nat)
    requires call.DepositEther? || call.DepositToken? || call.WithdrawEther? || call.WithdrawToken?
    requires Step(w, caller, call, now).Ok?
    ensures SameExceptLedger(w.exchange, Step(w, caller, call, now).value.state.exchange)
    ensures StatusKept(w.exchange, Step(w, caller, call, now).value.state.exchange)
  {
  }

  lemma OtherStepKeepsStatus(w: World, caller: Address, call: Call, now: nat)
    requires !(call.DepositEther? || call.DepositToken? || call.WithdrawEther? || call.WithdrawToken?)
    requires OrdersWellFormed(w.exchange)
    requires Step(w, caller, call, now).Ok?
    ensures StatusKept(w.exchange, Step(w, caller, call, now).value.state.exchange)
  {
    var ex, ex' := w.exchange, Step(w, caller, call, now).value.state.exchange;
    if call.MakeOrder? {
      assert ex.orderCount + 1 !in ex.orders;
    } else if call.CancelOrder? {
      assert ex'.filledOrders == ex.filledOrders && call.id !in ex.filledOrders;
    } else if call.FillOrder? {
      assert ex'.cancelledOrders == ex.cancelledOrders && call.id !in ex.cancelledOrders;
    } else {
      assert ex'.orders == ex.orders && ex'.orderCount == ex.orderCount;
    }
  }

  /** A run of transactions from well-formed order records keeps the status
      of every order: an order once cancelled or filled stays so, and a
      recorded order is never rewritten. */
  lemma {:induction false} RunKeepsStatus(w: World, txs: seq<Tx>)
    requires OrdersWellFormed(w.exchange)
    ensures OrdersWellFormed(Run(w, txs).exchange)
    ensures StatusKept(w.exchange, Run(w, txs).exchange)
    decreases |txs|
  {
    if txs != [] {
      var next := After(w, txs[0]);
      if Step(w, txs[0].caller, txs[0].call, txs[0].now).Ok? {
        StepKeepsStatus(w, txs[0].caller, txs[0].call, txs[0].now);
        StepKeepsOrders(w, txs[0].caller, txs[0].call, txs[0].now);
      }
      RunKeepsStatus(next, txs[1..]);
      StatusKeptTransitive(w.exchange, next.exchange, Run(next, txs[1..]).exchange);
    }
  }

  lemma StepKeepsInvariant(w: World, caller: Address, call: Call, now: nat)
    requires Invariant(w)
    requires caller != w.self
    requires Step(w, caller, call, now).Ok?
    ensures Invariant(Step(w, caller, call, now).value.state)
  {
    var w' := Step(w, caller, call, now).value.state;
    StepConservesSupply(w, caller, call, now);
    StepCustodyTracksLedger(w, caller, call, now);
    StepKeepsOrders(w, caller, call, now);
    forall a
      ensures Total(w'.exchange.tokens, a) <= Get(w'.wallets, a, w'.self)
    {
      assert Total(w.exchange.tokens, a) <= Get(w.wallets, a, w.self);
    }
  }

  /** From any world that satisfies the invariant, and so from a fresh
      deployment, every run of transactions not sent by the exchange itself
      keeps custody covering the ledger and the order records well formed. */
  lemma {:induction false} RunKeepsInvariant(w: World, txs: seq<Tx>)
    requires Invariant(w)
    requires forall i :: 0 <= i < |txs| ==> txs[i].caller != w.self
    ensures Run(w, txs).self == w.self
    ensures Invariant(Run(w, txs))
    decreases |txs|
  {
    if txs != [] {
      var r := Step(w, txs[0].caller, txs[0].call, txs[0].now);
      var next := After(w, txs[0]);
      if r.Ok? {
        StepKeepsInvariant(w, txs[0].caller, txs[0].call, txs[0].now);
        StepConservesSupply(w, txs[0].caller, txs[0].call, txs[0].now);
      }
      assert forall i :: 0 <= i < |txs[1..]| ==> txs[1..][i].caller == txs[i + 1].caller;
      RunKeepsInvariant(next, txs[1..]);
    }
  }

  lemma DeployedSatisfiesInvariant(self: Address, feeAccount: Address, wallets: Book, allowances: Erc20.Allowances)
    ensures Invariant(Deployed(self, feeAccount, wallets, allowances))
  {
  }
}

=== FILE: ledger.dfy ===
/** Deposits and withdrawals of the native currency and of tokens, and the fee
    skimmed off every withdrawal. */
module Ledger {
  import opened Books
  import opened Results
  import opened ExchangeState
  import Erc20

  /** The fee on a withdrawal of `amount`: `feePercent` percent of it,
      rounded down. */
  function Fee(amount: nat, feePercent: nat): (fee: nat)
    ensures fee * 100 <= amount * feePercent < (fee + 1) * 100
    ensures feePercent <= 100 ==> fee <= amount
  {
    amount * feePercent / 100
  }

  // ---------------------------------------------------------------------------
  // Deposits

  /** `w'` is `w` after `caller` deposited `amount` of `asset`: the ledger
      entry grows by exactly `amount` and no other entry moves, the same
      amount went from the caller's holdings into custody, and the Deposit
      event reports the resulting ledger balance. */
  ghost predicate Deposited(w: World, c: Committed<World>, asset: Address, caller: Address, amount: nat) {
    var w' := c.state;
    && w'.self == w.self
    && SameExceptLedger(w.exchange, w'.exchange)
    && Get(w'.exchange.tokens, asset, caller) == Get(w.exchange.tokens, asset, caller) + amount
    && OnlyEntry(w.exchange.tokens, w'.exchange.tokens, asset, caller)
    && Total(w'.exchange.tokens, asset) == Total(w.exchange.tokens, asset) + amount
    && OtherTotalsKept(w.exchange.tokens, w'.exchange.tokens, asset)
    && Moved(w.wallets, w'.wallets, asset, caller, w.self, amount)
    && c.event == Deposit(asset, caller, amount, Get(w'.exchange.tokens, asset, caller))
  }

  /** `depositEther()` with `value` attached to the call. */
  function DepositEther(w: World, caller: Address, value: nat): (r: Result<Committed<World>, Error>)
    ensures r.Ok? <==> 0 < value <= Get(w.wallets, Ether, caller)
    ensures value > Get(w.wallets, Ether, caller) ==> r == Err(InsufficientFunds)
    ensures value == 0 ==> r == Err(ZeroDeposit)
    ensures r.Ok? ==> Deposited(w, r.value, Ether, caller, value) && r.value.state.allowances == w.allowances
  {
    if value > Get(w.wallets, Ether, caller) then Err(InsufficientFunds)
    else if value == 0 then Err(ZeroDeposit)
    else
      var tokens := Credit(w.exchange.tokens, Ether, caller, value);
      var w' := w.(exchange := w.exchange.(tokens := tokens),
                   wallets := Move(w.wallets, Ether, caller, w.self, value));
      Ok(Committed(w', Deposit(Ether, caller, value, Get(tokens, Ether, caller))))
  }

  /** `depositToken(token, amount)`: the exchange pulls `amount` from the
      caller with `transferFrom`, so the caller must have approved it first. */
  function DepositToken(w: World, caller: Address, token: Address, amount: nat): (r: Result<Committed<World>, Error>)
    ensures r.Ok? <==>
              && token != Ether
              && amount > 0
              && Erc20.IsToken(w.wallets, token)
              && amount <= Get(w.wallets, token, caller)
              && amount <= Erc20.Allowance(w.allowances, token, caller, w.self)
    ensures token == Ether ==> r == Err(EtherNotAllowed)
    ensures token != Ether && amount == 0 ==> r == Err(ZeroDeposit)
    ensures (token != Ether && amount > 0 && r.Err?) ==> r.error.TransferFailed?
    ensures (token != Ether && amount > 0 && !Erc20.IsToken(w.wallets, token)) ==>
              r == Err(TransferFailed(Erc20.NotAToken))
    ensures (token != Ether && amount > 0 && Erc20.IsToken(w.wallets, token)
             && amount > Get(w.wallets, token, caller)) ==>
              r == Err(TransferFailed(Erc20.ExceedsBalance))
    ensures (token != Ether && amount > 0 && Erc20.IsToken(w.wallets, token)
             && amount <= Get(w.wallets, token, caller)
             && amount > Erc20.Allowance(w.allowances, token, caller, w.self)) ==>
              r == Err(TransferFailed(Erc20.ExceedsAllowance))
    ensures r.Ok? ==>
              && Deposited(w, r.value, token, caller, amount)
              && Erc20.Allowance(r.value.state.allowances, token, caller, w.self) + amount
                 == Erc20.Allowance(w.allowances, token, caller, w.self)
              && Erc20.OnlyAllowance(w.allowances, r.value.state.allowances, token, caller, w.self)
  {
    if token == Ether then Err(EtherNotAllowed)
    else if amount == 0 then Err(ZeroDeposit)
    else
      var pulled :- Erc20.TransferFrom(w.wallets, w.allowances, token, w.self, caller, w.self, amount)
                      .MapError(e => TransferFailed(e));
      var tokens := Credit(w.exchange.tokens, token, caller, amount);
      var w' := w.(exchange := w.exchange.(tokens := tokens), wallets := pulled.0, allowances := pulled.1);
      Ok(Committed(w', Deposit(token, caller, amount, Get(tokens, token, caller))))
  }

  /** `balanceOf` after a token deposit reads the old balance plus the
      amount, matches the balance the Deposit event reports, and reads the
      same as before for every other (asset, account) pair. */
  lemma BalanceOfAfterDeposit(w: World, caller: Address, token: Address, amount: nat)
    requires DepositToken(w, caller, token, amount).Ok?
    ensures var c := DepositToken(w, caller, token, amount).value;
            && BalanceOf(c.state.exchange, token, caller) == BalanceOf(w.exchange, token, caller) + amount
            && c.event.balance == BalanceOf(c.state.exchange, token, caller)
            && forall a, u :: (a != token || u != caller) ==>
                 BalanceOf(c.state.exchange, a, u) == BalanceOf(w.exchange, a, u)
  {
  }

  // ---------------------------------------------------------------------------
  // Withdrawals

  /** The exchange can pay `net` of `asset` out of custody. */
  predicate CanPay(wallets: Book, self: Address, asset: Address, net: nat) {
    (asset == Ether || Erc20.IsToken(wallets, asset)) && net <= Get(wallets, asset, self)
  }

  /** Sends `net` of `asset` from custody to `to`: a native value transfer
      for the zero address, `token.transfer` otherwise. A failed native
      transfer is `PayoutFailed`; a failed token transfer carries the token's
      own error. */
  function PayOut(wallets: Book, self: Address, asset: Address, to: Address, net: nat): (r: Result<Book, Error>)
    ensures r.Ok? <==> CanPay(wallets, self, asset, net)
    ensures asset == Ether && net > Get(wallets, Ether, self) ==> r == Err(PayoutFailed)
    ensures asset != Ether && !Erc20.IsToken(wallets, asset) ==> r == Err(TransferFailed(Erc20.NotAToken))
    ensures (asset != Ether && Erc20.IsToken(wallets, asset) && net > Get(wallets, asset, self)) ==>
              r == Err(TransferFailed(Erc20.ExceedsBalance))
    ensures r.Ok? ==> Moved(wallets, r.value, asset, self, to, net)
  {
    if asset == Ether then
      if net <= Get(wallets, Ether, self) then Ok(Move(wallets, Ether, self, to, net))
      else Err(PayoutFailed)
    else
      Erc20.Transfer(wallets, asset, self, to, net).MapError(e => TransferFailed(e))
  }

  /** `t'` is the ledger `t` after a withdrawal of `amount` of `asset` by
      `caller` with fee `fee`: the caller's entry drops by the whole `amount`,
      the fee account's entry gains the fee, and nothing else moves. */
  ghost predicate FeeSkimmed(t: Book, t': Book, asset: Address, caller: Address, feeAccount: Address, amount: nat, fee: nat) {
    && fee <= amount <= Get(t, asset, caller)
    && (caller != feeAccount ==>
          && Get(t', asset, caller) + amount == Get(t, asset, caller)
          && Get(t', asset, feeAccount) == Get(t, asset, feeAccount) + fee)
    && (caller == feeAccount ==> Get(t', asset, caller) + amount == Get(t, asset, caller) + fee)
    && (forall a, u :: (a != asset || (u != caller && u != feeAccount)) ==> Get(t', a, u) == Get(t, a, u))
    && Total(t', asset) + (amount - fee) == Total(t, asset)
    && OtherTotalsKept(t, t', asset)
  }

  function SkimFee(t: Book, asset: Address, caller: Address, feeAccount: Address, amount: nat, fee: nat): (t': Book)
    requires fee <= amount <= Get(t, asset, caller)
    ensures FeeSkimmed(t, t', asset, caller, feeAccount, amount, fee)
  {
    Credit(Debit(t, asset, caller, amount), asset, feeAccount, fee)
  }

  /** `w'` is `w` after `caller` withdrew `amount` of `asset`: the ledger
      skims the fee as `FeeSkimmed` says, `amount - fee` leaves custody for
      the caller's holdings, and the Withdrawal event reports the gross
      amount and the caller's post-debit balance. */
  ghost predicate Withdrawn(w: World, c: Committed<World>, asset: Address, caller: Address, amount: nat) {
    var w' := c.state;
    var t := w.exchange.tokens;
    var fee := Fee(amount, w.exchange.feePercent);
    && w'.self == w.self
    && w'.allowances == w.allowances
    && SameExceptLedger(w.exchange, w'.exchange)
    && FeeSkimmed(t, w'.exchange.tokens, asset, caller, w.exchange.feeAccount, amount, fee)
    && Moved(w.wallets, w'.wallets, asset, w.self, caller, amount - fee)
    && c.event == Withdrawal(asset, caller, amount, Get(t, asset, caller) - amount)
  }

  /** What `caller` holds of `asset` outside plus what the ledger holds of it
      for the caller and for the fee account is the same in `w` and `w'`.
      When the caller is the fee account, its one entry is counted once. */
  ghost predicate Conserved(w: World, w': World, asset: Address, caller: Address) {
    var t, t' := w.exchange.tokens, w'.exchange.tokens;
    var fa := w.exchange.feeAccount;
    if caller == fa then
      Get(w'.wallets, asset, caller) + Get(t', asset, caller)
      == Get(w.wallets, asset, caller) + Get(t, asset, caller)
    else
      Get(w'.wallets, asset, caller) + Get(t', asset, caller) + Get(t', asset, fa)
      == Get(w.wallets, asset, caller) + Get(t, asset, caller) + Get(t, asset, fa)
  }

  lemma WithdrawnConserves(w: World, c: Committed<World>, asset: Address, caller: Address, amount: nat)
    requires Withdrawn(w, c, asset, caller, amount)
    requires caller != w.self
    ensures Conserved(w, c.state, asset, caller)
  {
  }

  /** The withdrawal logic shared by `withdrawEther` and `withdrawToken`. */
  function Withdraw(w: World, caller: Address, asset: Address, amount: nat): (r: Result<Committed<World>, Error>)
    ensures r.Ok? <==>
              && amount <= Get(w.exchange.tokens, asset, caller)
              && Fee(amount, w.exchange.feePercent) <= amount
              && CanPay(w.wallets, w.self, asset, amount - Fee(amount, w.exchange.feePercent))
    ensures amount > Get(w.exchange.tokens, asset, caller) ==> r == Err(AmountExceedsBalance)
    ensures r.Ok? ==> Withdrawn(w, r.value, asset, caller, amount)
    ensures r.Ok? && caller != w.self ==> Conserved(w, r.value.state, asset, caller)
  {
    var t := w.exchange.tokens;
    if amount > Get(t, asset, caller) then Err(AmountExceedsBalance)
    else
      var fee := Fee(amount, w.exchange.feePercent);
      if fee > amount then Err(FeeExceedsAmount)
      else
        var paid :- PayOut(w.wallets, w.self, asset, caller, amount - fee);
        Ok(CommitWithdrawal(w, caller, asset, amount, paid))
  }

  /** The ledger side of a withdrawal whose payout `paid` has gone through. */
  function CommitWithdrawal(w: World, caller: Address, asset: Address, amount: nat, paid: Book): (c: Committed<World>)
    requires Fee(amount, w.exchange.feePercent) <= amount <= Get(w.exchange.tokens, asset, caller)
    requires Moved(w.wallets, paid, asset, w.self, caller, amount - Fee(amount, w.exchange.feePercent))
    ensures Withdrawn(w, c, asset, caller, amount)
    ensures caller != w.self ==> Conserved(w, c.state, asset, caller)
  {
    var t := w.exchange.tokens;
    var fee := Fee(amount, w.exchange.feePercent);
    var t' := SkimFee(t, asset, caller, w.exchange.feeAccount, amount, fee);
    var w' := w.(exchange := w.exchange.(tokens := t'), wallets := paid);
    var c := Committed(w', Withdrawal(asset, caller, amount, Get(t, asset, caller) - amount));
    if caller != w.self then
      WithdrawnConserves(w, c, asset, caller, amount);
      c
    else
      c
  }

  /** `withdrawEther(amount)`. */
  function WithdrawEther(w: World, caller: Address, amount: nat): (r: Result<Committed<World>, Error>)
    ensures amount > Get(w.exchange.tokens, Ether, caller) ==> r == Err(AmountExceedsBalance)
    ensures r.Ok? ==> Withdrawn(w, r.value, Ether, caller, amount)
    ensures (amount <= Get(w.exchange.tokens, Ether, caller) && w.exchange.feePercent <= 100
             && Total(w.exchange.tokens, Ether) <= Get(w.wallets, Ether, w.self)) ==> r.Ok?
  {
    TotalBoundsEntry(w.exchange.tokens, Ether, caller);
    Withdraw(w, caller, Ether, amount)
  }

  /** `withdrawToken(token, amount)`. */
  function WithdrawToken(w: World, caller: Address, token: Address, amount: nat): (r: Result<Committed<World>, Error>)
    ensures token == Ether ==> r == Err(EtherNotAllowed)
    ensures token != Ether && amount > Get(w.exchange.tokens, token, caller) ==> r == Err(AmountExceedsBalance)
    ensures r.Ok? ==> token != Ether && Withdrawn(w, r.value, token, caller, amount)
    ensures (token != Ether && Erc20.IsToken(w.wallets, token)
             && amount <= Get(w.exchange.tokens, token, caller) && w.exchange.feePercent <= 100
             && Total(w.exchange.tokens, token) <= Get(w.wallets, token, w.self)) ==> r.Ok?
  {
    if token == Ether then Err(EtherNotAllowed)
    else
      TotalBoundsEntry(w.exchange.tokens, token, caller);
      Withdraw(w, caller, token, amount)
  }
}

=== FILE: order_book.dfy ===
/** Order creation, cancellation and settlement. Orders reserve nothing when
    they are made; funds are checked only when an order is filled. */
module OrderBook {
  import opened Books
  import opened Results
  import opened ExchangeState

  /** `makeOrder(tokenGet, amountGet, tokenGive, amountGive)` at time `now`:
      records the order under the next id. It has no failure case. */
  function MakeOrder(ex: Exchange, caller: Address, tokenGet: Address, amountGet: nat,
                     tokenGive: Address, amountGive: nat, now: nat): (c: Committed<Exchange>)
    ensures c.state.orderCount == ex.orderCount + 1
    ensures c.state.orderCount in c.state.orders
    ensures c.state.orders[c.state.orderCount]
            == Order(c.state.orderCount, caller, tokenGet, amountGet, tokenGive, amountGive, now)
    ensures forall id :: id != c.state.orderCount ==>
              (id in c.state.orders <==> id in ex.orders)
              && (id in ex.orders ==> c.state.orders[id] == ex.orders[id])
    ensures c.state.(orderCount := ex.orderCount, orders := ex.orders) == ex
    ensures c.event == OrderMade(c.state.orders[c.state.orderCount])
    ensures OrdersWellFormed(ex) ==> OrdersWellFormed(c.state) && ex.orderCount + 1 !in ex.orders
  {
    var id := ex.orderCount + 1;
    var order := Order(id, caller, tokenGet, amountGet, tokenGive, amountGive, now);
    Committed(ex.(orderCount := id, orders := ex.orders[id := order]), OrderMade(order))
  }

  /** `cancelOrder(id)`: only the creator may cancel, and only once. An id
      with no order reads as a record whose creator is the zero address, so
      it fails the creator check. Cancelling a filled order is refused too. */
  function CancelOrder(ex: Exchange, caller: Address, id: nat): (r: Result<Committed<Exchange>, Error>)
    ensures r.Ok? <==>
              && id in ex.orders
              && ex.orders[id].user == caller
              && id !in ex.cancelledOrders
              && id !in ex.filledOrders
    ensures (id !in ex.orders || ex.orders[id].user != caller) ==> r == Err(NotOwner)
    ensures (id in ex.orders && ex.orders[id].user == caller && id in ex.cancelledOrders) ==> r == Err(AlreadyCancelled)
    ensures r.Ok? ==>
              && r.value.state.cancelledOrders == ex.cancelledOrders + {id}
              && r.value.state.(cancelledOrders := ex.cancelledOrders) == ex
              && r.value.event == Cancel(ex.orders[id])
    ensures r.Ok? && OrdersWellFormed(ex) ==> OrdersWellFormed(r.value.state)
  {
    if id !in ex.orders || ex.orders[id].user != caller then Err(NotOwner)
    else if id in ex.cancelledOrders then Err(AlreadyCancelled)
    else if id in ex.filledOrders then Err(AlreadyFilled)
    else Ok(Committed(ex.(cancelledOrders := ex.cancelledOrders + {id}), Cancel(ex.orders[id])))
  }

  /** `t'` is the ledger `t` after `filler` settled order `o`: the filler paid
      `amountGet` of `tokenGet` to the creator and received `amountGive` of
      `tokenGive` from the creator; when both legs use the same asset, each
      party's entry changes by the difference of the two amounts. No fee is
      taken, so every asset's total,
      and the pair's combined holding of every asset, stays the same, and no
      third account is touched. */
  ghost predicate Settled(t: Book, t': Book, o: Order, filler: Address) {
    && (forall a :: Total(t', a) == Total(t, a))
    && (forall a, u :: u != filler && u != o.user ==> Get(t', a, u) == Get(t, a, u))
    && (forall a :: Get(t', a, filler) + Get(t', a, o.user) == Get(t, a, filler) + Get(t, a, o.user))
    && (filler != o.user && o.tokenGet != o.tokenGive ==>
          && Get(t', o.tokenGet, filler) + o.amountGet == Get(t, o.tokenGet, filler)
          && Get(t', o.tokenGet, o.user) == Get(t, o.tokenGet, o.user) + o.amountGet
          && Get(t', o.tokenGive, o.user) + o.amountGive == Get(t, o.tokenGive, o.user)
          && Get(t', o.tokenGive, filler) == Get(t, o.tokenGive, filler) + o.amountGive)
    && (filler != o.user && o.tokenGet == o.tokenGive ==>
          && Get(t', o.tokenGet, filler) + o.amountGet == Get(t, o.tokenGet, filler) + o.amountGive
          && Get(t', o.tokenGet, o.user) + o.amountGive == Get(t, o.tokenGet, o.user) + o.amountGet)
  }

  /** Both legs of a trade, as two ledger transfers. */
  function Settle(t: Book, o: Order, filler: Address): (t': Book)
    requires o.amountGet <= Get(t, o.tokenGet, filler)
    requires o.amountGive <= Get(t, o.tokenGive, o.user)
    ensures Settled(t, t', o, filler)
  {
    var paid := Move(t, o.tokenGet, filler, o.user, o.amountGet);
    var t' := Move(paid, o.tokenGive, o.user, filler, o.amountGive);
    TwoLegsSettle(t, paid, t', o, filler);
    t'
  }

  /** The two ledger transfers of a trade, one after the other, settle it. */
  lemma TwoLegsSettle(t: Book, paid: Book, t': Book, o: Order, filler: Address)
    requires Moved(t, paid, o.tokenGet, filler, o.user, o.amountGet)
    requires Moved(paid, t', o.tokenGive, o.user, filler, o.amountGive)
    ensures Settled(t, t', o, filler)
  {
    forall a
      ensures Get(t', a, filler) + Get(t', a, o.user) == Get(t, a, filler) + Get(t, a, o.user)
    {
      assert Get(paid, a, filler) + Get(paid, a, o.user) == Get(t, a, filler) + Get(t, a, o.user);
    }
  }

  /** `fillOrder(id)`: settles an open order against the caller's ledger
      balance. The order must exist and be neither cancelled nor filled, the
      filler must hold `amountGet` and the creator `amountGive`. */
  function FillOrder(ex: Exchange, caller: Address, id: nat): (r: Result<Committed<Exchange>, Error>)
    ensures r.Ok? <==>
              && id in ex.orders
              && id !in ex.cancelledOrders
              && id !in ex.filledOrders
              && ex.orders[id].amountGet <= Get(ex.tokens, ex.orders[id].tokenGet, caller)
              && ex.orders[id].amountGive <= Get(ex.tokens, ex.orders[id].tokenGive, ex.orders[id].user)
    ensures id !in ex.orders ==> r == Err(OrderNotFound)
    ensures id in ex.cancelledOrders ==> r.Err?
    ensures id in ex.filledOrders ==> r.Err?
    ensures r.Ok? ==>
              && Settled(ex.tokens, r.value.state.tokens, ex.orders[id], caller)
              && r.value.state.filledOrders == ex.filledOrders + {id}
              && r.value.state.(tokens := ex.tokens, filledOrders := ex.filledOrders) == ex
              && r.value.event == Trade(ex.orders[id], caller)
    ensures r.Ok? && OrdersWellFormed(ex) ==> OrdersWellFormed(r.value.state)
  {
    if id !in ex.orders then Err(OrderNotFound)
    else if id in ex.cancelledOrders then Err(AlreadyCancelled)
    else if id in ex.filledOrders then Err(AlreadyFilled)
    else
      var o := ex.orders[id];
      if o.amountGet > Get(ex.tokens, o.tokenGet, caller) then Err(AmountExceedsBalance)
      else if o.amountGive > Get(ex.tokens, o.tokenGive, o.user) then Err(AmountExceedsBalance)
      else
        var ex' := ex.(tokens := Settle(ex.tokens, o, caller), filledOrders := ex.filledOrders + {id});
        Ok(Committed(ex', Trade(o, caller)))
  }
}

=== FILE: results.dfy ===
/** Success/failure outcome of one transaction. A failed transaction carries
    no state at all: the caller keeps the state it passed in, which is how a
    reverted call leaves every balance and record untouched. */
module Results {

  datatype Result<+T, +E> = Ok(value: T) | Err(error: E) {

    predicate IsFailure() {
      Err?
    }

    function PropagateFailure<U>(): Result<U, E>
      requires Err?
    {
      Err(error)
    }

    function Extract(): T
      requires Ok?
    {
      value
    }

    /** Re-labels the error of a failed result, keeping a success as it is. */
    function MapError<F>(wrap: E -> F): (r: Result<T, F>)
      ensures r.Ok? <==> Ok?
      ensures Ok? ==> r.value == value
      ensures Err? ==> r.error == wrap(error)
    {
      match this
      case Ok(v) => Ok(v)
      case Err(e) => Err(wrap(e))
    }
  }
}

=== FILE: scenarios.dfy ===
/** The behaviour the exchange's test suite pins down, stated over `Host.Step`
    and `Host.Run`, plus the all-inputs laws that the individual tests are
    instances of. Amounts are in the smallest unit: `toWei(x)` is `x * Unit`. */
module Scenarios {
  import opened Books
  import opened Results
  import opened ExchangeState
  import Erc20
  import Ledger
  import OrderBook
  import FeeAdmin
  import opened Host

  const Tenth: nat := 100_000_000_000_000_000
  const Unit: nat := 10 * Tenth

  /** The fixture every test starts from: a freshly deployed exchange at
      `w.self`, a token contract at `token`, and `user` holding 100 tokens. */
  ghost predicate Fixture(w: World, feeAccount: Address, token: Address, user: Address) {
    && w.exchange == Deploy(feeAccount)
    && Erc20.IsToken(w.wallets, token)
    && Get(w.wallets, token, user) == 100 * Unit
    && user != feeAccount
    && user != w.self
  }

  // ---------------------------------------------------------------------------
  // Fee administration

  /** The fee account set at deployment may change both fee settings; any
      other caller is refused with the `Ownable` error. */
  lemma FeeAdminScenario(feeAccount: Address, user: Address)
    requires user != feeAccount
    ensures var ex := Deploy(feeAccount);
            && FeeAdmin.ChangeFeeAccount(ex, feeAccount, user).Ok?
            && FeeAdmin.ChangeFeeAccount(ex, feeAccount, user).value.state.feeAccount == user
            && FeeAdmin.ChangeFeeAccount(ex, user, user) == Err(NotOwner)
            && FeeAdmin.ChangeFeePercent(ex, feeAccount, 5).Ok?
            && FeeAdmin.ChangeFeePercent(ex, feeAccount, 5).value.state.feePercent == 5
            && FeeAdmin.ChangeFeePercent(ex, user, 5) == Err(NotOwner)
  {
  }

  /** Ownership moves only at the owner's request: once the fee account
      hands it to `next`, the fee account is refused the fee setters and
      `next` is accepted; handing it to the zero address is refused; once
      `next` renounces, it is refused too. */
  lemma OwnershipScenario(feeAccount: Address, next: Address, other: Address)
    requires next != feeAccount && next != 0 && other != feeAccount
    ensures var ex := Deploy(feeAccount);
            && FeeAdmin.TransferOwnership(ex, other, other) == Err(NotOwner)
            && FeeAdmin.TransferOwnership(ex, feeAccount, 0) == Err(ZeroOwner)
            && FeeAdmin.TransferOwnership(ex, feeAccount, next).Ok?
    ensures var moved := FeeAdmin.TransferOwnership(Deploy(feeAccount), feeAccount, next).value.state;
            && FeeAdmin.ChangeFeePercent(moved, feeAccount, 5) == Err(NotOwner)
            && FeeAdmin.ChangeFeePercent(moved, next, 5).Ok?
            && FeeAdmin.RenounceOwnership(moved, feeAccount) == Err(NotOwner)
            && FeeAdmin.RenounceOwnership(moved, next).Ok?
            && FeeAdmin.ChangeFeeAccount(FeeAdmin.RenounceOwnership(moved, next).value.state, next, next)
               == Err(NotOwner)
  {
  }

  /** Plain value sent to the exchange is refused, whoever sends it. */
  lemma FallbackRejected(w: World, caller: Address, value: nat, now: nat)
    ensures Step(w, caller, SendEther(value), now) == Err(NoFallback)
  {
  }

  // ---------------------------------------------------------------------------
  // Tokens

  lemma TokenDepositScenario(w: World, feeAccount: Address, token: Address, user: Address)
    requires Fixture(w, feeAccount, token, user)
    ensures var approved := After(w, Tx(user, TokenApprove(token, w.self, 10 * Unit), 0));
            var r := Step(approved, user, DepositToken(token, 10 * Unit), 0);
            && r.Ok?
            && BalanceOf(r.value.state.exchange, token, user) == 10 * Unit
            && r.value.event == Deposit(token, user, 10 * Unit, 10 * Unit)
            && Step(approved, user, DepositToken(token, 0), 0) == Err(ZeroDeposit)
            && Step(approved, user, DepositToken(Ether, 10 * Unit), 0) == Err(EtherNotAllowed)
    ensures var reapproved := After(After(w, Tx(user, TokenApprove(token, w.self, 10 * Unit), 0)),
                                    Tx(user, TokenApprove(token, w.self, 5 * Unit), 0));
            Step(reapproved, user, DepositToken(token, 10 * Unit), 0) == Err(TransferFailed(Erc20.ExceedsAllowance))
  {
  }

  /** Deposit 10 tokens, withdraw 5: the ledger keeps 5, the fee account
      gets 0.5, and 4.5 come back, leaving the user with 94.5 outside. */
  lemma TokenWithdrawScenario(w: World, feeAccount: Address, token: Address, user: Address)
    requires Fixture(w, feeAccount, token, user)
    ensures var deposited := After(After(w, Tx(user, TokenApprove(token, w.self, 10 * Unit), 0)),
                                   Tx(user, DepositToken(token, 10 * Unit), 0));
            var r := Step(deposited, user, WithdrawToken(token, 5 * Unit), 0);
            && r.Ok?
            && Get(r.value.state.wallets, token, user) == 945 * Tenth
            && BalanceOf(r.value.state.exchange, token, user) == 5 * Unit
            && BalanceOf(r.value.state.exchange, token, feeAccount) == 5 * Tenth
            && r.value.event == Withdrawal(token, user, 5 * Unit, 5 * Unit)
            && Step(deposited, user, WithdrawToken(token, 15 * Unit), 0) == Err(AmountExceedsBalance)
  {
    var approved := After(w, Tx(user, TokenApprove(token, w.self, 10 * Unit), 0));
    assert Erc20.Allowance(approved.allowances, token, user, w.self) == 10 * Unit;
    assert approved.wallets == w.wallets && approved.exchange == w.exchange;
    var deposited := After(approved, Tx(user, DepositToken(token, 10 * Unit), 0));
    assert Step(approved, user, DepositToken(token, 10 * Unit), 0).Ok?;
    assert Get(deposited.wallets, token, user) == 90 * Unit;
    assert Get(deposited.wallets, token, w.self) >= 10 * Unit;
    assert deposited.exchange == Deploy(feeAccount).(tokens := deposited.exchange.tokens);
    WithdrawFiveOfTen(deposited, feeAccount, token, user);
  }

  /** The withdrawal half of `TokenWithdrawScenario`, from any world in which
      the user holds 90 tokens outside and 10 in the ledger. */
  lemma WithdrawFiveOfTen(w: World, feeAccount: Address, token: Address, user: Address)
    requires w.exchange.feePercent == 10 && w.exchange.feeAccount == feeAccount
    requires Erc20.IsToken(w.wallets, token)
    requires Get(w.wallets, token, user) == 90 * Unit
    requires Get(w.wallets, token, w.self) >= 10 * Unit
    requires BalanceOf(w.exchange, token, user) == 10 * Unit
    requires BalanceOf(w.exchange, token, feeAccount) == 0
    requires user != feeAccount && user != w.self
    ensures var r := Step(w, user, WithdrawToken(token, 5 * Unit), 0);
            && r.Ok?
            && Get(r.value.state.wallets, token, user) == 945 * Tenth
            && BalanceOf(r.value.state.exchange, token, user) == 5 * Unit
            && BalanceOf(r.value.state.exchange, token, feeAccount) == 5 * Tenth
            && r.value.event == Withdrawal(token, user, 5 * Unit, 5 * Unit)
            && Step(w, user, WithdrawToken(token, 15 * Unit), 0) == Err(AmountExceedsBalance)
  {
    assert Ledger.Fee(5 * Unit, 10) == 5 * Tenth;
  }

  // ---------------------------------------------------------------------------
  // Native currency

  lemma EtherDepositScenario(w: World, feeAccount: Address, user: Address)
    requires w.exchange == Deploy(feeAccount)
    requires Get(w.wallets, Ether, user) >= Unit
    ensures var r := Step(w, user, DepositEther(Unit), 0);
            && r.Ok?
            && BalanceOf(r.value.state.exchange, Ether, user) == Unit
            && r.value.event == Deposit(Ether, user, Unit, Unit)
    ensures Step(w, user, DepositEther(0), 0) == Err(ZeroDeposit)
  {
  }

  /** Deposit 2, withdraw 1: the ledger keeps 1 and the fee account gets 0.1. */
  lemma EtherWithdrawScenario(w: World, feeAccount: Address, user: Address)
    requires w.exchange == Deploy(feeAccount)
    requires Get(w.wallets, Ether, user) >= 2 * Unit
    requires user != feeAccount && user != w.self
    ensures var deposited := After(w, Tx(user, DepositEther(2 * Unit), 0));
            var r := Step(deposited, user, WithdrawEther(Unit), 0);
            && r.Ok?
            && BalanceOf(r.value.state.exchange, Ether, user) == Unit
            && BalanceOf(r.value.state.exchange, Ether, feeAccount) == Tenth
            && r.value.event == Withdrawal(Ether, user, Unit, Unit)
            && Step(deposited, user, WithdrawEther(10 * Unit), 0) == Err(AmountExceedsBalance)
  {
    var deposited := After(w, Tx(user, DepositEther(2 * Unit), 0));
    assert Step(w, user, DepositEther(2 * Unit), 0).Ok?;
    WithdrawOneOfTwo(deposited, feeAccount, user);
  }

  /** The withdrawal half of `EtherWithdrawScenario`, from any world in
      which the user's ledger balance is 2 and custody holds at least that. */
  lemma WithdrawOneOfTwo(w: World, feeAccount: Address, user: Address)
    requires w.exchange.feePercent == 10 && w.exchange.feeAccount == feeAccount
    requires BalanceOf(w.exchange, Ether, user) == 2 * Unit
    requires BalanceOf(w.exchange, Ether, feeAccount) == 0
    requires Get(w.wallets, Ether, w.self) >= 2 * Unit
    requires user != feeAccount && user != w.self
    ensures var r := Step(w, user, WithdrawEther(Unit), 0);
            && r.Ok?
            && BalanceOf(r.value.state.exchange, Ether, user) == Unit
            && BalanceOf(r.value.state.exchange, Ether, feeAccount) == Tenth
            && r.value.event == Withdrawal(Ether, user, Unit, Unit)
            && Step(w, user, WithdrawEther(10 * Unit), 0) == Err(AmountExceedsBalance)
  {
    assert Ledger.Fee(Unit, 10) == Tenth;
  }


  // ---------------------------------------------------------------------------
  // Orders

  lemma MakeOrderScenario(feeAccount: Address, user: Address, token: Address, now: nat)
    ensures var c := OrderBook.MakeOrder(Deploy(feeAccount), user, Ether, Unit, token, Unit, now);
            && c.state.orderCount == 1
            && 1 in c.state.orders
            && c.state.orders[1] == Order(1, user, Ether, Unit, token, Unit, now)
            && c.event == OrderMade(Order(1, user, Ether, Unit, token, Unit, now))
  {
  }

  lemma CancelOrderScenario(feeAccount: Address, user: Address, other: Address, token: Address, now: nat)
    requires other != user
    ensures var made := OrderBook.MakeOrder(Deploy(feeAccount), user, Ether, Unit, token, Unit, now).state;
            var r := OrderBook.CancelOrder(made, user, 1);
            && r.Ok?
            && 1 in r.value.state.cancelledOrders
            && OrderBook.CancelOrder(r.value.state, user, 1) == Err(AlreadyCancelled)
            && OrderBook.CancelOrder(made, other, 1) == Err(NotOwner)
            && 1 !in made.cancelledOrders
  {
  }

  /** A cancelled order stays cancelled: after any later run of
      transactions, it can be neither cancelled again nor filled, by anyone.
      Every world reachable from a deployment has well-formed order records
      (`Host.RunKeepsInvariant`). */
  lemma CancelIsFinal(w: World, caller: Address, id: nat, now: nat, txs: seq<Tx>, anyone: Address, later: nat)
    requires OrdersWellFormed(w.exchange)
    requires Step(w, caller, CancelOrder(id), now).Ok?
    ensures var w' := Run(Step(w, caller, CancelOrder(id), now).value.state, txs);
            && id in w'.exchange.cancelledOrders
            && Step(w', anyone, CancelOrder(id), later).Err?
            && Step(w', caller, CancelOrder(id), later) == Err(AlreadyCancelled)
            && Step(w', anyone, FillOrder(id), later) == Err(AlreadyCancelled)
  {
    StepKeepsOrders(w, caller, CancelOrder(id), now);
    RunKeepsStatus(Step(w, caller, CancelOrder(id), now).value.state, txs);
  }

  /** A filled order stays filled: after any later run of transactions, it
      can be neither filled again nor cancelled, by anyone. */
  lemma FillIsFinal(w: World, caller: Address, id: nat, now: nat, txs: seq<Tx>, anyone: Address, later: nat)
    requires OrdersWellFormed(w.exchange)
    requires Step(w, caller, FillOrder(id), now).Ok?
    ensures var w' := Run(Step(w, caller, FillOrder(id), now).value.state, txs);
            && id in w'.exchange.filledOrders
            && Step(w', anyone, FillOrder(id), later) == Err(AlreadyFilled)
            && Step(w', anyone, CancelOrder(id), later).Err?
  {
    var filled := Step(w, caller, FillOrder(id), now).value.state;
    StepKeepsOrders(w, caller, FillOrder(id), now);
    RunKeepsStatus(filled, txs);
    assert id !in filled.exchange.cancelledOrders * filled.exchange.filledOrders;
    var ex' := Run(filled, txs).exchange;
    assert id in ex'.orders && id in ex'.filledOrders && id !in ex'.cancelledOrders;
  }

  /** The settlement the seeding script performs: the maker offers 1 unit of
      the native currency for 100 tokens, and a taker holding the tokens
      fills it. The two swap exactly those amounts in the ledger. */
  lemma FillScenario(ex: Exchange, maker: Address, taker: Address, token: Address, now: nat)
    requires OrdersWellFormed(ex)
    requires maker != taker && token != Ether
    requires Get(ex.tokens, Ether, maker) == Unit && Get(ex.tokens, token, taker) == 100 * Unit
    ensures var made := OrderBook.MakeOrder(ex, maker, token, 100 * Unit, Ether, Unit, now).state;
            var id := made.orderCount;
            var r := OrderBook.FillOrder(made, taker, id);
            && r.Ok?
            && Get(r.value.state.tokens, Ether, maker) == 0
            && Get(r.value.state.tokens, token, maker) == Get(ex.tokens, token, maker) + 100 * Unit
            && Get(r.value.state.tokens, token, taker) == 0
            && Get(r.value.state.tokens, Ether, taker) == Get(ex.tokens, Ether, taker) + Unit
            && OrderBook.FillOrder(r.value.state, taker, id) == Err(AlreadyFilled)
  {
  }

  // ---------------------------------------------------------------------------
  // Round trip

  /** Depositing `amount` of the native currency and withdrawing it again
      restores the caller's ledger entry, hands the fee to the fee account,
      and returns all but the fee to the caller. */
  lemma EtherRoundTrip(w: World, caller: Address, amount: nat)
    requires caller != w.self && caller != w.exchange.feeAccount
    requires w.exchange.feePercent <= 100
    requires Host.Solvent(w)
    requires 0 < amount <= Get(w.wallets, Ether, caller)
    ensures var d := Ledger.DepositEther(w, caller, amount);
            && d.Ok?
            && var r := Ledger.WithdrawEther(d.value.state, caller, amount);
            && r.Ok?
            && var fee := Ledger.Fee(amount, w.exchange.feePercent);
            && BalanceOf(r.value.state.exchange, Ether, caller) == BalanceOf(w.exchange, Ether, caller)
            && BalanceOf(r.value.state.exchange, Ether, w.exchange.feeAccount)
               == BalanceOf(w.exchange, Ether, w.exchange.feeAccount) + fee
            && Get(r.value.state.wallets, Ether, caller) + fee == Get(w.wallets, Ether, caller)
  {
  }
}
